=== FILE: README.md ===
# ChatWithPDFs client state engine, in Dafny

This project models the client-side state engine of the ChatWithPDFs Angular
front end. Users keep PDFs in named categories (folders), chat with an
assistant about one folder's PDFs, and chat with a general assistant. The
model covers three parts:

- **Category/document store.** `LiveChatService` models the live `ChatService`.
  Category creation and deletion and PDF deletion are applied only after the
  server confirms them. An upload first raises the category's `isUploading`
  flag, then either appends the PDF or just clears the flag. After every
  successful mutation the list is mirrored to a local snapshot, and the
  service boots from that snapshot when one exists. `MockChatService` models
  the earlier backend-less service. It also keeps a per-category history of
  chat sessions.
- **Chat sessions.** The live service holds at most one PDF session id. A
  question asked with no active session fails without reaching the backend.
  A backend answer becomes an assistant message, which carries a source only
  when the backend named one. The chat components (`PdfChat`,
  `PdfChatWithHistory`, `AiChat`, `MockPdfChat`, `MockAiChat`) keep an
  append-only message list. `MockApp` files the current PDF conversation into
  the history when the user switches to the general assistant.
- **History reconciliation.** `LiveChatService.ReconcileHistory` folds the
  backend's flat `{sender, message, timestamp}` log into zero or one session.

Everything is a pure function on immutable datatypes. Anything the source
gets from outside becomes an explicit parameter:

- every HTTP call's outcome is a `Result` parameter;
- the clock (`new Date()`, `Date.now()`) is a `now` parameter;
- `Math.random()` becomes the `roll` and `pick` parameters;
- the user's answer to `confirm()` is the `confirmed` parameter.

An operation that starts an asynchronous call returns a `ChatView.Step`: the
new component state plus the request it issued. The call's completion is a
separate transition. Shared record types live in `ChatModel`. `Seqs` holds
the id-keyed `filter`/`findIndex` operations. `Text` holds JavaScript's
`trim` and number printing.

The code behaves as follows in these places, and the model does the same:

- A failed `startNewPdfChat` keeps the previously held session id. The
  session does not fall back to idle.
- Choosing another folder does not clear the old session first. The old id
  stays until a new start succeeds.
- A session counts as active by `!!id`, so an empty-string id is inactive as
  well as `null`.
- `addCategory` does not reject blank names.
- `deleteCategory` and `deletePdf` do not check beforehand that the ids
  exist; `uploadPdf` does, and returns before calling the server when the
  category is unknown. A PDF deletion in an unknown category changes
  nothing. A confirmed `deleteCategory` of an
  unknown id, and a confirmed `deletePdf` of an unknown PDF in a known
  category, leave the list as it was but still republish and persist it. So
  after a failed first load, deleting an unknown category stores an empty
  list, and the next start reads that snapshot instead of asking the server.
- The live service's `getChatHistory` turns a failed fetch into an empty
  history. The error branch of the history-loading component therefore never
  fires against it (`PdfChatWithHistory.ChooseFolderShowsHistory`).
- The seed session of the mock history is dated a day before its only
  message, so it breaks the rule that a session starts at its first message
  (`MockChatService.DefaultHistoryNotWellFormed`). Every session the mock
  saves obeys that rule.

## Model

| member | source | states |
|---|---|---|
| Seqs.RemoveKey | frontend/src/app/core/services/chat.ts:87 | the filter keeps exactly the elements with another id, and it is the identity exactly when no element has the id |
| Seqs.RemoveKeyAppend | frontend/src/app/core/services/chat.ts:87 | filtering distributes over concatenation, so the survivors keep their order |
| Seqs.FindIndex | frontend/src/app/core/services/chat.ts:96-97 | findIndex gives the first index holding the id, or none exactly when no element has it |
| Text.Trim | frontend/src/app/components/pdf-chat/pdf-chat.ts:68 | `trim()` is empty exactly when every character is JavaScript whitespace, so the guard rejects exactly the blank inputs |
| Text.NatToStringRoundTrip | src/app/core/services/chat.ts:78 | the decimal rendering of a clock reading reads back to that reading |
| ChatView.ScrollButtonMonotone | pdf-chat.ts:118-123 | scrolling further up never hides the scroll-to-bottom button, and the bottom position always hides it |
| LiveChatService.CategoriesFromNames | frontend/src/app/core/services/chat.ts:53-58 | one category per server name, in order, each with id and name equal to the name, no PDFs and not uploading |
| LiveChatService.LoadInitialDataFromServer | frontend/src/app/core/services/chat.ts:50-66 | a successful fetch publishes the materialised names and persists a snapshot equal to them; a failed one publishes an empty list and persists nothing |
| LiveChatService.LoadStateFromStorage | frontend/src/app/core/services/chat.ts:31-38 | a stored snapshot is published as is and the server is not consulted; otherwise the server list decides, and a failed fetch leaves the empty initial store |
| LiveChatService.AddCategory | frontend/src/app/core/services/chat.ts:71-81 | a failed create changes nothing; a confirmed one appends exactly one empty category keyed by the name after the unchanged earlier ones, and the snapshot equals the new list |
| LiveChatService.DeleteCategory | frontend/src/app/core/services/chat.ts:83-92 | a failed delete changes nothing; a confirmed one leaves exactly the filter of that id, the categories with another id in their original order, leaves the list as it was when none has the id, and persists |
| LiveChatService.DeleteCategoryKeepsOrder | frontend/src/app/core/services/chat.ts:87 | deleting from a list split anywhere gives the survivors of the front followed by the survivors of the back |
| LiveChatService.AddThenDeleteCategory | frontend/src/app/core/services/chat.ts:71-92 | adding a new category and then deleting it restores the category list |
| LiveChatService.UploadStart | frontend/src/app/core/services/chat.ts:94-100 | an unknown category is a no-op; otherwise only the first category with the id is changed, and only its flag, which is raised before the upload resolves; no snapshot is written |
| LiveChatService.UploadComplete | frontend/src/app/core/services/chat.ts:102-116 | success appends the PDF keyed and named by the file name, clears the flag and persists; failure clears the flag, leaves the PDFs and does not persist; other categories are untouched |
| LiveChatService.UploadFailureRestores | frontend/src/app/core/services/chat.ts:94-116 | a failed upload, start to finish, leaves the store exactly as it was |
| LiveChatService.UploadSuccessAppends | frontend/src/app/core/services/chat.ts:94-109 | a successful upload, start to finish, adds the one PDF, clears the flag and persists |
| LiveChatService.DeletePdf | frontend/src/app/core/services/chat.ts:118-140 | nothing changes without both confirmations or for an unknown category; otherwise the named category's PDFs become exactly the filter of that id, in their original order, other categories are untouched, and the list is persisted |
| LiveChatService.UploadThenDeletePdf | frontend/src/app/core/services/chat.ts:94-133 | uploading a new file and then deleting it restores the category list |
| LiveChatService.IsPdfSessionActive | frontend/src/app/core/services/chat.ts:19-20 | a null id and the empty id are inactive, every other id is active |
| LiveChatService.StartNewPdfChat | frontend/src/app/core/services/chat.ts:143-150 | a successful start holds the returned id, so it is active when non-empty; a failed start keeps the old id |
| LiveChatService.ClearPdfSession | frontend/src/app/core/services/chat.ts:192-194 | after clearing, no session is active |
| LiveChatService.PdfChatRequest | frontend/src/app/core/services/chat.ts:152-158 | a request carrying the held id and the question goes out exactly when a session is active |
| LiveChatService.SourceLabel | frontend/src/app/core/services/chat.ts:167 | the label is the source name, then " (p. ", then the page in decimal, then ")" |
| LiveChatService.SourceLabelPageInjective | frontend/src/app/core/services/chat.ts:167 | the same document on two different pages gets two different labels |
| LiveChatService.ReplyMessage | frontend/src/app/core/services/chat.ts:159-188 | the answer becomes an assistant message that carries a source exactly when sources is non-empty; the source's page is sources[0].page, its pdfId is empty, and its name is the label `source (p. page)` of sources[0] |
| LiveChatService.ReplyMessageUsesFirstSourceOnly | frontend/src/app/core/services/chat.ts:162-178 | only the answer and the first source shape the message |
| LiveChatService.GetPdfChatResponse | frontend/src/app/core/services/chat.ts:152-190 | with no active session the result is the no-session failure whatever the backend would say; otherwise backend failures pass through and answers are mapped |
| LiveChatService.ClearedSessionRefuses | frontend/src/app/core/services/chat.ts:153-156 | after clearPdfSession no request goes out and every question fails |
| LiveChatService.ReconcileHistory | frontend/src/app/core/services/chat.ts:208-225 | an empty log gives no session; any other log gives one session keyed by the category, starting at the first timestamp, with the messages mapped 1:1 in order |
| LiveChatService.GetChatHistory | frontend/src/app/core/services/chat.ts:206-231 | a failed fetch gives an empty history, a successful one its reconciliation |
| LiveChatService.ReconcileRoundTrip | frontend/src/app/core/services/chat.ts:213-225 | flattening the reconciled sessions gives back the log exactly |
| LiveChatService.ReconciledSessionsWellFormed | frontend/src/app/core/services/chat.ts:220-224 | every reconciled session starts at its first message's timestamp |
| MockChatService.Create | src/app/core/services/chat.ts:26-59 | each list comes from storage when stored, otherwise it is exactly the seed data (category cat1 with requirements.pdf; one welcome session dated a day back); nothing is written |
| MockChatService.DefaultHistoryNotWellFormed | src/app/core/services/chat.ts:39-49 | the seed session does not start at its first message |
| MockChatService.SaveCategories | src/app/core/services/chat.ts:63-66 | the published and the persisted lists are the given list; the history is untouched |
| MockChatService.SaveHistory | src/app/core/services/chat.ts:68-71 | the published and the persisted histories are the given history |
| MockChatService.ClockId | src/app/core/services/chat.ts:78 | the id is the prefix followed by the clock reading, and for a non-negative reading the suffix reads back to it |
| MockChatService.ClockIdsDistinct | src/app/core/services/chat.ts:78 | ids built from different clock readings differ |
| MockChatService.AddCategory | src/app/core/services/chat.ts:75-83 | appends one category with the name, a clock id and no PDFs, keeps all earlier ones, persists, and leaves the history alone |
| MockChatService.DeleteCategory | src/app/core/services/chat.ts:85-97 | the categories become exactly the filter of that id, in their original order, and are persisted; the history entry is removed and the history persisted when present; other entries keep their sessions, and an absent entry leaves the history as it was |
| MockChatService.AddThenDeleteCategory | src/app/core/services/chat.ts:75-97 | adding a category with a fresh clock id and then deleting it restores both the categories and the history |
| MockChatService.UploadStart | src/app/core/services/chat.ts:99-105 | acts only on a known category, raising its flag without persisting |
| MockChatService.UploadComplete | src/app/core/services/chat.ts:107-116 | appends one PDF named after the file with a clock id, keeps the category's id and name, clears the flag and persists the categories; other categories and the history are untouched |
| MockChatService.UploadAppends | src/app/core/services/chat.ts:99-116 | an upload, start to finish, is exactly the one-PDF append with the flag cleared, persisted, with the history untouched |
| MockChatService.GetPdfChatResponse | src/app/core/services/chat.ts:120-144 | a source naming pdfs[0], on a page from 1 to 20, is attached exactly when the category exists and has a PDF; otherwise the fixed no-source answer |
| MockChatService.GetAiSolutionResponse | src/app/core/services/chat.ts:146-152 | either canned answer quotes the message |
| MockChatService.GetChatHistory | src/app/core/services/chat.ts:182-186 | a known category gives its stored sessions as they are, an unknown one gives no sessions |
| MockChatService.SaveChatSession | src/app/core/services/chat.ts:155-178 | an empty id or empty message list is a no-op; otherwise one session starting at the first message is put in front of the category's sessions (created when absent), other categories unchanged, history persisted |
| MockChatService.DeleteChatSession | src/app/core/services/chat.ts:188-194 | within an existing entry the sessions become exactly the filter of that id, keeping the newest-first order, and the history is persisted while the categories are untouched; an absent category is a no-op |
| MockChatService.SaveThenDeleteSession | src/app/core/services/chat.ts:155-194 | deleting the session just saved restores the category's history |
| MockChatService.HistoryOperationsKeepWellFormed | src/app/core/services/chat.ts:155-194 | saving, deleting a session and deleting a category keep every session starting at its first message |
| PdfChat.OnCategoryChange | frontend/src/app/components/pdf-chat/pdf-chat.ts:39-45 | no folder: nothing happens; otherwise the messages are emptied, the starting flag raised and a session start for that folder requested |
| PdfChat.SessionStarted | frontend/src/app/components/pdf-chat/pdf-chat.ts:46-59 | the starting flag is cleared either way; success appends one welcome message, failure appends nothing; the folder, the input and the thinking flag are untouched |
| PdfChat.ChooseFolder | frontend/src/app/components/pdf-chat/pdf-chat.ts:39-60 | choosing a folder ends with the starting flag cleared; a successful start with a non-empty id gives exactly one welcome message and an active session; a failed start gives no message and leaves an idle service idle |
| PdfChat.SendMessage | frontend/src/app/components/pdf-chat/pdf-chat.ts:67-91 | blank input changes nothing; otherwise the user message is appended, the thinking flag raised, the input reset and the pre-reset text sent; the folder and the starting flag are untouched |
| PdfChat.ReplyArrived | frontend/src/app/components/pdf-chat/pdf-chat.ts:75-89 | the answer or the fixed error notice is appended after the unchanged earlier messages, and the thinking flag is cleared; the folder, the input and the starting flag are untouched |
| PdfChat.AskWithoutSession | frontend/src/app/components/pdf-chat/pdf-chat.ts:67-91 | asking without a session shows the question and then the error notice |
| PdfChat.ClearSession | frontend/src/app/components/pdf-chat/pdf-chat.ts:104-108 | messages emptied, folder deselected, service session inactive; the input and both flags are untouched |
| PdfChatWithHistory.OnCategoryChange | pdf-chat.ts:51-57 | no folder: nothing happens; otherwise the messages are emptied, loading raised and a history fetch for that folder requested; the input, the scroll button and the viewer are untouched |
| PdfChatWithHistory.HistoryLoaded | pdf-chat.ts:57-79 | shows the first session's messages or appends one welcome message, then requests a session start for the folder and clears loading; a failed fetch only clears loading; the folder, the input, the scroll button and the viewer are untouched either way |
| PdfChatWithHistory.ChooseFolderShowsHistory | pdf-chat.ts:51-73 | against the live service the shown messages spell out the backend log, or are the one welcome message, and a session start always follows |
| PdfChatWithHistory.HistoryFailureLeavesEmpty | pdf-chat.ts:74-78 | a failed history fetch leaves no messages and no loading |
| PdfChatWithHistory.SendMessage | pdf-chat.ts:82-107 | blank input or no folder is a no-op; otherwise the user message is appended before the request, loading is raised and the input reset; the folder, the scroll button and the viewer are untouched |
| PdfChatWithHistory.ReplyArrived | pdf-chat.ts:91-105 | the answer or the fixed error notice is appended after the unchanged earlier messages, and loading is cleared; the folder, the input, the scroll button and the viewer are untouched |
| PdfChatWithHistory.AskAndAnswer | pdf-chat.ts:82-107 | an answered question adds the question and then the answer, which carries a source exactly when the backend named one |
| PdfChatWithHistory.OnChatScroll | pdf-chat.ts:118-123 | the button shows exactly when scrollHeight - scrollTop > clientHeight + 1, and nothing else changes |
| PdfChatWithHistory.ViewSource | pdf-chat.ts:125-137 | a source opens the viewer on it; no source changes nothing; only the viewer fields ever change |
| PdfChatWithHistory.ClosePdfViewer | pdf-chat.ts:139-141 | the viewer is hidden and the source forgotten, and nothing else changes |
| PdfChatWithHistory.ViewThenClose | pdf-chat.ts:125-141 | opening and closing the viewer restores the closed state |
| PdfChatWithHistory.ClearSession | pdf-chat.ts:142-146 | messages emptied, folder deselected, service session inactive; the input, loading, the scroll button and the viewer are untouched |
| AiChat.Create | frontend/src/app/components/ai-chat/ai-chat.ts:27-32 | construction leaves exactly one assistant greeting |
| AiChat.SendMessage | frontend/src/app/components/ai-chat/ai-chat.ts:44-60 | blank input changes nothing; otherwise the user text is appended, loading raised, the button hidden, the input cleared and the pre-clear text sent |
| AiChat.ReplyArrived | frontend/src/app/components/ai-chat/ai-chat.ts:61-73 | success appends the answer and failure the fixed error notice, after the unchanged earlier messages; loading ends, and the input and the scroll button are untouched |
| AiChat.FirstExchange | frontend/src/app/components/ai-chat/ai-chat.ts:27-74 | greeting, question, then answer or error notice, and the component idle again |
| AiChat.OnChatScroll | frontend/src/app/components/ai-chat/ai-chat.ts:87-93 | the button shows exactly when scrollHeight - scrollTop > clientHeight + 1, and nothing else changes |
| MockPdfChat.SendMessage | src/app/components/pdf-chat/pdf-chat.ts:33-46 | blank input or no folder is a no-op; otherwise the user message and then the service's answer to that question for that folder are appended after the unchanged earlier messages, and the input reset |
| MockPdfChat.SendCitesFolder | src/app/components/pdf-chat/pdf-chat.ts:33-46 | the answer shown cites the selected folder's first PDF, on a page from 1 to 20, exactly when that folder exists and holds a PDF, and is the fixed no-source answer otherwise |
| MockPdfChat.ClearSession | src/app/components/pdf-chat/pdf-chat.ts:23-25 | only the messages are emptied; the folder stays selected |
| MockAiChat.Create | src/app/components/ai-chat/ai-chat.ts:20-27 | construction leaves exactly one assistant greeting |
| MockAiChat.SendMessage | src/app/components/ai-chat/ai-chat.ts:29-42 | blank input is a no-op; otherwise the user message and the canned answer are appended and the input reset |
| MockApp.SwitchToAiChat | src/app/app.ts:24-38 | the flag equals the argument; switching on saves the PDF chat under its folder and then empties it; switching off touches nothing |
| MockApp.SwitchFilesConversation | src/app/app.ts:24-35 | after switching on, the conversation is the newest session of its folder and the PDF chat is empty |

## Left out

- Local storage and JSON (de)serialisation, including the date-reviving regex. The snapshot is a field equal to the last list written. An empty stored string counts as no snapshot.
- HTTP, the request/response envelope and the backend (Python, LLM, vector store, sqlite). Each call is an outcome parameter. A missing `sources` field in a chat reply counts as an empty list.
- rxjs scheduling, subscriptions and unsubscription, and timers. Each asynchronous completion is its own transition. The model also leaves out races between concurrent operations.
- LiveChatService.UploadComplete: finds the category by id in the current list. The source writes through the list and the index captured when the upload started. Both give the same result unless another mutation completes in between, and that case belongs to the races left out above.
- MockChatService.UploadComplete: finds the category by id in the current list for the same reason.
- Clocks and randomness are parameters (`now`, `roll`, `pick`). Dates are integer milliseconds. Scroll offsets are integers, so fractional pixel values are not modelled.
- Alerts, `confirm()` and SweetAlert dialogs. Focus handling, `scrollToBottom`, `ngAfterViewChecked` and the PDF viewer's rendering are DOM-only and not modelled.
- `getAiSolutionResponse` and `deleteChatHistory` of the live service are pass-throughs of a backend call. The AI-chat completion takes the answer's outcome directly.
- The live service's `saveChatSession` stub only throws "not implemented".
- The front end's `app.ts` wiring, `loadChatForCategory`, and the header, modal, file-manager and chat-history components are not part of this model.

=== FILE: ai_chat.dfy ===
/** The general-assistant chat of the front end: every message is an
    independent request with no session. */
module AiChat {
  import opened Wrappers
  import opened ChatModel
  import opened ChatView
  import Text
  import LiveChatService

  datatype View = View(messages: seq<ChatMessage>, userMessage: string, isLoading: bool, showScrollToBottom: bool)

  const GreetingText := "I am your general AI assistant. How can I help you today?"
  const ErrorText := "Sorry, I encountered an error. Please try again."

  /** The constructor: exactly one assistant greeting, nothing typed, idle. */
  function Create(now: Timestamp): (r: View)
    ensures |r.messages| == 1 && r.messages[0].sender == Ai && r.messages[0].text == GreetingText
    ensures r.userMessage == "" && !r.isLoading && !r.showScrollToBottom
  {
    View([AiMessage(GreetingText, now)], "", false, false)
  }

  /** `sendMessage`: blank input changes nothing. Otherwise the user's text is
      appended, the loading flag raised, the button hidden so the view
      follows the answer, and the input cleared, while the text as it was
      before clearing is sent (the request). */
  function SendMessage(v: View, now: Timestamp): (r: Step<View>)
    ensures Text.IsBlank(v.userMessage) ==> r == Step(v, None)
    ensures !Text.IsBlank(v.userMessage) ==>
              && r.view.messages == v.messages + [UserMessage(v.userMessage, now)]
              && r.view.isLoading && !r.view.showScrollToBottom
              && r.view.userMessage == ""
              && r.request == Some(AskAi(v.userMessage))
  {
    if Text.Trim(v.userMessage) == "" then Step(v, None)
    else
      var messageToSend := v.userMessage;
      Step(View(v.messages + [UserMessage(v.userMessage, now)], "", true, false), Some(AskAi(messageToSend)))
  }

  /** The completion of the request: the answer as an assistant message, or
      the fixed error notice, goes after everything shown; loading ends. */
  function ReplyArrived(v: View, answer: LiveChatService.ApiResult<string>, now: Timestamp): (r: View)
    ensures !r.isLoading
    ensures |r.messages| == |v.messages| + 1 && r.messages[..|v.messages|] == v.messages
    ensures answer.Success? ==> r.messages[|v.messages|] == AiMessage(answer.value, now)
    ensures answer.Failure? ==> r.messages[|v.messages|] == AiMessage(ErrorText, now)
    ensures r.userMessage == v.userMessage && r.showScrollToBottom == v.showScrollToBottom
  {
    match answer
    case Success(text) => v.(messages := v.messages + [AiMessage(text, now)], isLoading := false)
    case Failure(_) => v.(messages := v.messages + [AiMessage(ErrorText, now)], isLoading := false)
  }

  /** A whole exchange after construction: greeting, question, then the answer
      or the error notice, and the component idle again. */
  lemma FirstExchange(text: string, answer: LiveChatService.ApiResult<string>, t0: Timestamp, t1: Timestamp, t2: Timestamp)
    requires !Text.IsBlank(text)
    ensures var sent := SendMessage(Create(t0).(userMessage := text), t1);
            var r := ReplyArrived(sent.view, answer, t2);
            && sent.request == Some(AskAi(text))
            && |r.messages| == 3 && r.messages[0].text == GreetingText
            && r.messages[1] == UserMessage(text, t1)
            && r.messages[2].text == (if answer.Success? then answer.value else ErrorText)
            && !r.isLoading && r.userMessage == ""
  {
  }

  /** `onChatScroll`: the button shows exactly when the viewport is more than
      one pixel above the bottom. */
  function OnChatScroll(v: View, scrollHeight: int, scrollTop: int, clientHeight: int): (r: View)
    ensures r.showScrollToBottom <==> scrollHeight - scrollTop > clientHeight + 1
    ensures r == v.(showScrollToBottom := r.showScrollToBottom)
  {
    v.(showScrollToBottom := ShowScrollToBottom(scrollHeight, scrollTop, clientHeight))
  }
}

=== FILE: chat_model.dfy ===
/** The records the client keeps: categories with their PDFs, chat messages
    with an optional source, and chat sessions. A `Date` is its millisecond
    count since the epoch. */
module ChatModel {
  import opened Wrappers

  type Timestamp = int

  /** An uploaded document; its id is unique within its category's list. */
  datatype Pdf = Pdf(id: string, name: string, uploadDate: Timestamp)

  /** A folder of PDFs. The optional `isUploading` of the record type is a
      bool here, an absent field reading as false. */
  datatype Category = Category(id: string, name: string, pdfs: seq<Pdf>, isUploading: bool)

  /** The source's `'user' | 'ai'`. */
  datatype Sender = User | Ai

  /** Where an assistant answer came from. */
  datatype ChatSource = ChatSource(pdfId: string, pdfName: string, pageNumber: int, sourceText: Option<string>)

  datatype ChatMessage = ChatMessage(sender: Sender, text: string, timestamp: Timestamp, source: Option<ChatSource>)

  datatype ChatSession = ChatSession(id: string, startTime: Timestamp, messages: seq<ChatMessage>)

  /** Key projections used to find and filter lists by id. */
  function CategoryId(c: Category): string { c.id }
  function PdfId(p: Pdf): string { p.id }
  function SessionId(s: ChatSession): string { s.id }

  /** A message typed by the user; it never carries a source. */
  function UserMessage(text: string, now: Timestamp): ChatMessage {
    ChatMessage(User, text, now, None)
  }

  /** An assistant message without a source (greetings, welcomes, error notices). */
  function AiMessage(text: string, now: Timestamp): ChatMessage {
    ChatMessage(Ai, text, now, None)
  }

  /** A session starts when its first message was sent. */
  predicate WellFormedSession(s: ChatSession) {
    |s.messages| > 0 && s.startTime == s.messages[0].timestamp
  }
}

/** What the chat components share: the result of an operation that starts
    an asynchronous call, and the scroll-to-bottom test. */
module ChatView {
  import opened Wrappers

  /** The asynchronous calls a component can issue: start a backend session
      for a folder, fetch a folder's stored history, ask the PDF assistant, or
      ask the general assistant. */
  datatype Request =
    | StartSession(categoryId: string)
    | FetchHistory(categoryId: string)
    | AskPdf(question: string)
    | AskAi(question: string)

  /** A component's new state together with the asynchronous request it has
      issued, if any; the request's completion is a separate transition. */
  datatype Step<V> = Step(view: V, request: Option<Request>)

  /** `onChatScroll`: the viewport counts as at the bottom within one pixel of
      tolerance, and the scroll-to-bottom button shows when it is not. */
  function ShowScrollToBottom(scrollHeight: int, scrollTop: int, clientHeight: int): bool {
    !(scrollHeight - scrollTop <= clientHeight + 1)
  }

  /** Scrolling further up never hides the button, and scrolling to the
      bottom always hides it. */
  lemma ScrollButtonMonotone(scrollHeight: int, scrollTop: int, higher: int, clientHeight: int)
    requires higher <= scrollTop
    ensures ShowScrollToBottom(scrollHeight, scrollTop, clientHeight)
            ==> ShowScrollToBottom(scrollHeight, higher, clientHeight)
    ensures !ShowScrollToBottom(scrollHeight, scrollHeight - clientHeight, clientHeight)
  {
  }
}

=== FILE: live_chat_service.dfy ===
/** The ChatService the Angular front end talks to: a category/PDF store that
    mirrors the backend (confirm-then-apply for categories and deletions,
    optimistic flag for uploads) and persists a snapshot locally; the single
    PDF chat session id; the mapping of backend answers to messages; and the
    folding of the backend's flat history log into sessions.

    Every call to the backend is an explicit outcome parameter. */
module LiveChatService {
  import opened Wrappers
  import opened ChatModel
  import Seqs
  import Text

  /** Any failed HTTP call; its details do not influence the state. */
  datatype ApiError = ApiError(detail: string)

  type ApiResult<T> = Result<T, ApiError>

  // ---------------------------------------------------------------------
  // Category store
  // ---------------------------------------------------------------------

  /** The published category list and the last list written to local storage
      under the key 'chat_app_state' (None while nothing has been written). */
  datatype Store = Store(categories: seq<Category>, snapshot: Option<seq<Category>>)

  /** The local snapshot mirrors the published list. */
  predicate Persisted(s: Store) {
    s.snapshot == Some(s.categories)
  }

  /** The list published before anything is loaded. */
  const InitialStore := Store([], None)

  /** The category the client materialises for a name the server knows. */
  function NewCategory(name: string): Category {
    Category(name, name, [], false)
  }

  function Ids(cs: seq<Category>): (ids: seq<string>)
    ensures |ids| == |cs| && forall i :: 0 <= i < |cs| ==> ids[i] == cs[i].id
  {
    seq(|cs|, i requires 0 <= i < |cs| => cs[i].id)
  }

  /** The server's name list turned into empty categories, one per name, in order. */
  function CategoriesFromNames(names: seq<string>): (cs: seq<Category>)
    ensures Ids(cs) == names
    ensures forall i :: 0 <= i < |cs| ==> cs[i].name == cs[i].id && cs[i].pdfs == [] && !cs[i].isUploading
  {
    seq(|names|, i requires 0 <= i < |names| => NewCategory(names[i]))
  }

  /** `loadInitialDataFromServer`: on success publish and persist the
      materialised list; on failure publish an empty list and persist nothing. */
  function LoadInitialDataFromServer(s: Store, fetched: ApiResult<seq<string>>): (r: Store)
    ensures fetched.Success? ==> Ids(r.categories) == fetched.value && Persisted(r)
    ensures fetched.Success? ==> forall c :: c in r.categories ==> c == NewCategory(c.id)
    ensures fetched.Failure? ==> r.categories == [] && r.snapshot == s.snapshot
  {
    match fetched
    case Success(names) =>
      var cs := CategoriesFromNames(names);
      Store(cs, Some(cs))
    case Failure(_) => Store([], s.snapshot)
  }

  /** `loadStateFromStorage`, run by the constructor: a stored snapshot is
      published as it is and the server is not asked; otherwise the list comes
      from the server (`fetched`). */
  function LoadStateFromStorage(stored: Option<seq<Category>>, fetched: ApiResult<seq<string>>): (r: Store)
    ensures stored.Some? ==> r.categories == stored.value && Persisted(r)
    ensures stored.None? && fetched.Success? ==> Ids(r.categories) == fetched.value && Persisted(r)
    ensures stored.None? && fetched.Failure? ==> r == InitialStore
  {
    match stored
    case Some(cs) => Store(cs, stored)
    case None => LoadInitialDataFromServer(InitialStore, fetched)
  }

  /** `addCategory`: only once the server confirms, append one empty category
      named and keyed by `name`, and persist. */
  function AddCategory(s: Store, name: string, created: ApiResult<()>): (r: Store)
    ensures created.Failure? ==> r == s
    ensures created.Success? ==> |r.categories| == |s.categories| + 1
    ensures created.Success? ==> r.categories[..|s.categories|] == s.categories
    ensures created.Success? ==> r.categories[|s.categories|] == NewCategory(name) && Persisted(r)
  {
    if created.Failure? then s
    else
      var cs := s.categories + [NewCategory(name)];
      Store(cs, Some(cs))
  }

  /** `deleteCategory`: only once the server confirms, drop every category
      with that id, keep the rest, and persist. */
  function DeleteCategory(s: Store, categoryId: string, deleted: ApiResult<()>): (r: Store)
    ensures deleted.Failure? ==> r == s
    ensures deleted.Success? ==> Persisted(r)
    ensures deleted.Success? ==> r.categories == Seqs.RemoveKey(s.categories, CategoryId, categoryId)
  {
    if deleted.Failure? then s
    else
      var cs := Seqs.RemoveKey(s.categories, CategoryId, categoryId);
      Store(cs, Some(cs))
  }

  /** Deleting removes exactly the matching categories: for any split of the
      list, the survivors of the front come first and the survivors of the
      back follow, each part keeping its own order. */
  lemma DeleteCategoryKeepsOrder(s: Store, before: seq<Category>, after: seq<Category>, categoryId: string)
    requires s.categories == before + after
    ensures DeleteCategory(s, categoryId, Success(())).categories
            == DeleteCategory(Store(before, None), categoryId, Success(())).categories
             + DeleteCategory(Store(after, None), categoryId, Success(())).categories
  {
    Seqs.RemoveKeyAppend(before, after, CategoryId, categoryId);
  }

  /** Adding a category the store does not hold and then deleting it gives
      back the original list. */
  lemma AddThenDeleteCategory(s: Store, name: string)
    requires forall c :: c in s.categories ==> c.id != name
    ensures DeleteCategory(AddCategory(s, name, Success(())), name, Success(())).categories == s.categories
  {
    var added := AddCategory(s, name, Success(())).categories;
    assert added == s.categories + [NewCategory(name)];
    Seqs.RemoveKeyAppend(s.categories, [NewCategory(name)], CategoryId, name);
    assert Seqs.RemoveKey(s.categories, CategoryId, name) == s.categories;
    assert Seqs.RemoveKey([NewCategory(name)], CategoryId, name) == [];
  }

  /** The position `uploadPdf` and `deletePdf` act on. */
  function FindCategory(cs: seq<Category>, categoryId: string): Option<nat> {
    Seqs.FindIndex(cs, CategoryId, categoryId)
  }

  /** The first half of `uploadPdf`: for a known category raise its
      `isUploading` flag and publish at once, before the upload resolves; the
      snapshot is not written. An unknown category is ignored. */
  function UploadStart(s: Store, categoryId: string): (r: Store)
    ensures FindCategory(s.categories, categoryId).None? ==> r == s
    ensures r.snapshot == s.snapshot && |r.categories| == |s.categories|
    ensures FindCategory(s.categories, categoryId).Some? ==>
              var i := FindCategory(s.categories, categoryId).value;
              && r.categories[i] == s.categories[i].(isUploading := true)
              && r.categories[i].id == categoryId
              && forall j :: 0 <= j < |s.categories| && j != i ==> r.categories[j] == s.categories[j]
  {
    match FindCategory(s.categories, categoryId)
    case None => s
    case Some(i) =>
      Store(s.categories[i := s.categories[i].(isUploading := true)], s.snapshot)
  }

  /** The server's reply to an upload. */
  datatype UploadResponse = UploadResponse(message: string)

  /** The completion of `uploadPdf`. On success the file is appended to the
      category as a PDF keyed and named by the file name, the flag is cleared
      and the list persisted; on failure only the flag is cleared and nothing
      is persisted. */
  function UploadComplete(s: Store, categoryId: string, fileName: string, uploaded: ApiResult<UploadResponse>, now: Timestamp): (r: Store)
    ensures FindCategory(s.categories, categoryId).None? ==> r == s
    ensures |r.categories| == |s.categories|
    ensures FindCategory(s.categories, categoryId).Some? ==>
              var i := FindCategory(s.categories, categoryId).value;
              && !r.categories[i].isUploading
              && r.categories[i].id == s.categories[i].id
              && r.categories[i].name == s.categories[i].name
              && (forall j :: 0 <= j < |s.categories| && j != i ==> r.categories[j] == s.categories[j])
              && (uploaded.Success? ==> r.categories[i].pdfs == s.categories[i].pdfs + [Pdf(fileName, fileName, now)] && Persisted(r))
              && (uploaded.Failure? ==> r.categories[i].pdfs == s.categories[i].pdfs && r.snapshot == s.snapshot)
  {
    match FindCategory(s.categories, categoryId)
    case None => s
    case Some(i) =>
      var c := s.categories[i];
      if uploaded.Success? then
        var cs := s.categories[i := c.(pdfs := c.pdfs + [Pdf(fileName, fileName, now)], isUploading := false)];
        Store(cs, Some(cs))
      else
        Store(s.categories[i := c.(isUploading := false)], s.snapshot)
  }

  /** A failed upload of a category that was not uploading leaves the store
      exactly as it was: clearing the flag is the whole compensation. */
  lemma UploadFailureRestores(s: Store, categoryId: string, fileName: string, err: ApiError, now: Timestamp)
    requires FindCategory(s.categories, categoryId).Some?
    requires !s.categories[FindCategory(s.categories, categoryId).value].isUploading
    ensures UploadComplete(UploadStart(s, categoryId), categoryId, fileName, Failure(err), now) == s
  {
  }

  /** A successful upload, start to finish, adds the one PDF and persists. */
  lemma UploadSuccessAppends(s: Store, categoryId: string, fileName: string, resp: UploadResponse, now: Timestamp)
    requires FindCategory(s.categories, categoryId).Some?
    ensures var i := FindCategory(s.categories, categoryId).value;
            var r := UploadComplete(UploadStart(s, categoryId), categoryId, fileName, Success(resp), now);
            && Persisted(r)
            && r.categories == s.categories[i := s.categories[i].(pdfs := s.categories[i].pdfs + [Pdf(fileName, fileName, now)], isUploading := false)]
  {
  }

  /** `deletePdf`: nothing happens unless the user confirms and the server
      confirms; then the PDF is filtered out of the first category with that
      id, every other category is left as it was, and the list is persisted. */
  function DeletePdf(s: Store, categoryId: string, pdfId: string, confirmed: bool, deleted: ApiResult<()>): (r: Store)
    ensures !confirmed || deleted.Failure? || FindCategory(s.categories, categoryId).None? ==> r == s
    ensures |r.categories| == |s.categories|
    ensures confirmed && deleted.Success? && FindCategory(s.categories, categoryId).Some? ==>
              var i := FindCategory(s.categories, categoryId).value;
              && Persisted(r)
              && r.categories[i] == s.categories[i].(pdfs := r.categories[i].pdfs)
              && r.categories[i].pdfs == Seqs.RemoveKey(s.categories[i].pdfs, PdfId, pdfId)
              && (forall j :: 0 <= j < |s.categories| && j != i ==> r.categories[j] == s.categories[j])
  {
    if !confirmed || deleted.Failure? then s
    else
      match FindCategory(s.categories, categoryId)
      case None => s
      case Some(i) =>
        var c := s.categories[i];
        var cs := s.categories[i := c.(pdfs := Seqs.RemoveKey(c.pdfs, PdfId, pdfId))];
        Store(cs, Some(cs))
  }

  /** Uploading a file the category does not hold and then deleting it
      (confirmed, successful) restores the category list. */
  lemma UploadThenDeletePdf(s: Store, categoryId: string, fileName: string, resp: UploadResponse, now: Timestamp)
    requires FindCategory(s.categories, categoryId).Some?
    requires var c := s.categories[FindCategory(s.categories, categoryId).value];
             !c.isUploading && forall p :: p in c.pdfs ==> p.id != fileName
    ensures var up := UploadComplete(UploadStart(s, categoryId), categoryId, fileName, Success(resp), now);
            DeletePdf(up, categoryId, fileName, true, Success(())).categories == s.categories
  {
    var i := FindCategory(s.categories, categoryId).value;
    var c := s.categories[i];
    var pdf := Pdf(fileName, fileName, now);
    var added := c.(pdfs := c.pdfs + [pdf], isUploading := false);
    UploadSuccessAppends(s, categoryId, fileName, resp, now);
    var up := UploadComplete(UploadStart(s, categoryId), categoryId, fileName, Success(resp), now);
    assert up.categories == s.categories[i := added];
    Seqs.FindIndexUpdate(s.categories, CategoryId, categoryId, i, added);
    assert FindCategory(up.categories, categoryId) == Some(i);
    Seqs.RemoveAppended(c.pdfs, pdf, PdfId);
    var del := DeletePdf(up, categoryId, fileName, true, Success(()));
    assert del.categories == up.categories[i := added.(pdfs := c.pdfs)];
  }

  // ---------------------------------------------------------------------
  // PDF chat session
  // ---------------------------------------------------------------------

  /** `isPdfSessionActive$`, i.e. `!!id`: a null id and the empty string are
      both falsy, every other string is truthy. */
  function IsPdfSessionActive(session: Option<string>): (active: bool)
    ensures session.None? ==> !active
    ensures session == Some("") ==> !active
    ensures session.Some? && session.value != "" ==> active
  {
    match session
    case None => false
    case Some(id) => |id| > 0
  }

  /** The server's reply to `POST /chat/start`. */
  datatype StartResponse = StartResponse(message: string, sessionId: string)

  /** `startNewPdfChat`: a successful start replaces the held id with the new
      one; a failed start leaves the held id as it was. */
  function StartNewPdfChat(session: Option<string>, started: ApiResult<StartResponse>): (r: Option<string>)
    ensures started.Success? ==> r == Some(started.value.sessionId)
    ensures started.Success? && started.value.sessionId != "" ==> IsPdfSessionActive(r)
    ensures started.Failure? ==> r == session
  {
    match started
    case Success(resp) => Some(resp.sessionId)
    case Failure(_) => session
  }

  /** `clearPdfSession`: forget the held id. */
  function ClearPdfSession(session: Option<string>): (r: Option<string>)
    ensures !IsPdfSessionActive(r)
  {
    None
  }

  /** One entry of the backend's `sources` list. */
  datatype SourceRef = SourceRef(source: string, page: int)

  /** The server's reply to `POST /chat`. A missing `sources` field reads as empty. */
  datatype ChatReply = ChatReply(answer: string, sources: seq<SourceRef>)

  /** The body of `POST /chat`. */
  datatype ChatRequest = ChatRequest(sessionId: string, question: string)

  datatype ChatError = NoActiveSession | BackendError(cause: ApiError)

  /** The request `getPdfChatResponse` sends: none at all without an active session. */
  function PdfChatRequest(session: Option<string>, message: string): (r: Option<ChatRequest>)
    ensures r.Some? <==> IsPdfSessionActive(session)
    ensures r.Some? ==> r.value.sessionId == session.value && r.value.question == message
  {
    if IsPdfSessionActive(session) then Some(ChatRequest(session.value, message)) else None
  }

  /** The label of a source: `${source} (p. ${page})`. */
  function SourceLabel(ref: SourceRef): (text: string)
    ensures var n := |ref.source| + 5;
            && n < |text|
            && text[..|ref.source|] == ref.source
            && text[|ref.source|..n] == " (p. "
            && text[n..|text| - 1] == Text.IntToString(ref.page)
            && text[|text| - 1] == ')'
  {
    var text := ref.source + " (p. " + Text.IntToString(ref.page) + ")";
    assert text[..|ref.source|] == ref.source;
    assert text[|ref.source|..|ref.source| + 5] == " (p. ";
    assert text[|ref.source| + 5..|text| - 1] == Text.IntToString(ref.page);
    text
  }

  /** Two sources of the same document on different pages get different texts. */
  lemma SourceLabelPageInjective(source: string, p: int, q: int)
    requires p != q
    ensures SourceLabel(SourceRef(source, p)) != SourceLabel(SourceRef(source, q))
  {
    Text.IntToStringInjective(p, q);
  }

  /** A backend answer as an assistant message: it carries a source exactly
      when `sources` is non-empty, built from the first entry alone. */
  function ReplyMessage(reply: ChatReply, now: Timestamp): (m: ChatMessage)
    ensures m.sender == Ai && m.text == reply.answer && m.timestamp == now
    ensures m.source.Some? <==> |reply.sources| > 0
    ensures m.source.Some? ==>
              && m.source.value.pageNumber == reply.sources[0].page
              && m.source.value.pdfId == ""
              && m.source.value.pdfName == SourceLabel(reply.sources[0])
              && m.source.value.sourceText.None?
  {
    if |reply.sources| > 0 then
      var first := reply.sources[0];
      ChatMessage(Ai, reply.answer, now, Some(ChatSource("", SourceLabel(first), first.page, None)))
    else
      ChatMessage(Ai, reply.answer, now, None)
  }

  /** Only the answer and the first source shape the message. */
  lemma ReplyMessageUsesFirstSourceOnly(a: ChatReply, b: ChatReply, now: Timestamp)
    requires a.answer == b.answer && |a.sources| > 0 && |b.sources| > 0 && a.sources[0] == b.sources[0]
    ensures ReplyMessage(a, now) == ReplyMessage(b, now)
  {
  }

  /** `getPdfChatResponse`: without an active session it fails with no call
      to the backend (`reply` is not consulted); otherwise the backend's
      failure is passed on and its answer becomes an assistant message. */
  function GetPdfChatResponse(session: Option<string>, message: string, reply: ApiResult<ChatReply>, now: Timestamp): (r: Result<ChatMessage, ChatError>)
    ensures !IsPdfSessionActive(session) ==> r == Failure(NoActiveSession)
    ensures IsPdfSessionActive(session) && reply.Failure? ==> r == Failure(BackendError(reply.error))
    ensures IsPdfSessionActive(session) && reply.Success? ==> r.Success? && r.value == ReplyMessage(reply.value, now)
  {
    match PdfChatRequest(session, message)
    case None => Failure(NoActiveSession)
    case Some(_) =>
      match reply
      case Failure(e) => Failure(BackendError(e))
      case Success(answer) => Success(ReplyMessage(answer, now))
  }

  /** After `clearPdfSession` every question is refused, whatever the backend would say. */
  lemma ClearedSessionRefuses(session: Option<string>, message: string, reply: ApiResult<ChatReply>, now: Timestamp)
    ensures PdfChatRequest(ClearPdfSession(session), message).None?
    ensures GetPdfChatResponse(ClearPdfSession(session), message, reply, now) == Failure(NoActiveSession)
  {
  }

  // ---------------------------------------------------------------------
  // History reconciliation
  // ---------------------------------------------------------------------

  /** One row of the backend's flat history log. */
  datatype RawMessage = RawMessage(sender: Sender, message: string, timestamp: Timestamp)

  /** `message` becomes `text`; a logged message has no source. */
  function FromRaw(m: RawMessage): ChatMessage {
    ChatMessage(m.sender, m.message, m.timestamp, None)
  }

  /** The log row a message came from. */
  function ToRaw(m: ChatMessage): RawMessage {
    RawMessage(m.sender, m.text, m.timestamp)
  }

  /** The `map` in `getChatHistory`: an empty log gives no session; any other
      log becomes one session keyed by the category, starting at the first
      message, holding every message in order. */
  function ReconcileHistory(categoryId: string, raw: seq<RawMessage>): (r: seq<ChatSession>)
    ensures raw == [] <==> r == []
    ensures |r| <= 1
    ensures raw != [] ==>
              && r[0].id == categoryId
              && r[0].startTime == raw[0].timestamp
              && |r[0].messages| == |raw|
              && forall i :: 0 <= i < |raw| ==> ToRaw(r[0].messages[i]) == raw[i] && r[0].messages[i].source.None?
  {
    if raw == [] then []
    else
      var messages := seq(|raw|, i requires 0 <= i < |raw| => FromRaw(raw[i]));
      [ChatSession(categoryId, messages[0].timestamp, messages)]
  }

  /** `getChatHistory`: a failed fetch reads as an empty history. */
  function GetChatHistory(categoryId: string, fetched: ApiResult<seq<RawMessage>>): (r: seq<ChatSession>)
    ensures fetched.Failure? ==> r == []
    ensures fetched.Success? ==> r == ReconcileHistory(categoryId, fetched.value)
  {
    match fetched
    case Success(raw) => ReconcileHistory(categoryId, raw)
    case Failure(_) => []
  }

  /** The log that a list of sessions spells out, session after session. */
  function FlattenHistory(sessions: seq<ChatSession>): seq<RawMessage> {
    if sessions == [] then []
    else
      var ms := sessions[0].messages;
      seq(|ms|, i requires 0 <= i < |ms| => ToRaw(ms[i])) + FlattenHistory(sessions[1..])
  }

  /** Reconciliation loses and reorders nothing: flattening its sessions
      gives back the log. */
  lemma ReconcileRoundTrip(categoryId: string, raw: seq<RawMessage>)
    ensures FlattenHistory(ReconcileHistory(categoryId, raw)) == raw
  {
  }

  /** Every reconciled session starts with its first message. */
  lemma ReconciledSessionsWellFormed(categoryId: string, raw: seq<RawMessage>)
    ensures forall s :: s in ReconcileHistory(categoryId, raw) ==> WellFormedSession(s)
  {
  }
}

=== FILE: mock_ai_chat.dfy ===
/** The general-assistant chat of the earlier application. */
module MockAiChat {
  import opened ChatModel
  import Text
  import MockChatService

  datatype View = View(messages: seq<ChatMessage>, userMessage: string)

  const GreetingText := "I am your general AI assistant. How can I help you today?"

  /** The constructor: exactly one assistant greeting. */
  function Create(now: Timestamp): (r: View)
    ensures |r.messages| == 1 && r.messages[0].sender == Ai && r.messages[0].text == GreetingText
    ensures r.userMessage == ""
  {
    View([AiMessage(GreetingText, now)], "")
  }

  /** `sendMessage`: blank input changes nothing; otherwise the user message
      and the canned answer to it are appended, and the input is reset. */
  function SendMessage(v: View, pick: nat, now: Timestamp): (r: View)
    requires pick < 2
    ensures Text.IsBlank(v.userMessage) ==> r == v
    ensures !Text.IsBlank(v.userMessage) ==>
              && r.messages == v.messages + [UserMessage(v.userMessage, now),
                                             AiMessage(MockChatService.GetAiSolutionResponse(v.userMessage, pick), now)]
              && r.userMessage == ""
  {
    if Text.Trim(v.userMessage) == "" then v
    else
      var answer := MockChatService.GetAiSolutionResponse(v.userMessage, pick);
      View(v.messages + [UserMessage(v.userMessage, now), AiMessage(answer, now)], "")
  }
}

=== FILE: mock_app.dfy ===
/** The earlier application shell: switching to the general assistant files
    the current PDF chat into the history, then clears it. */
module MockApp {
  import opened ChatModel
  import MockChatService
  import MockPdfChat

  datatype App = App(isAiChatActive: bool, pdfChat: MockPdfChat.View, service: MockChatService.Service)

  /** `switchToAiChat`: when switching to the assistant, save the PDF chat's
      messages under its folder and then clear them; the flag always takes
      the argument's value. */
  function SwitchToAiChat(a: App, isActive: bool, now: Timestamp): (r: App)
    ensures r.isAiChatActive == isActive
    ensures !isActive ==> r.pdfChat == a.pdfChat && r.service == a.service
    ensures isActive ==> r.pdfChat.messages == [] && r.pdfChat.selectedCategoryId == a.pdfChat.selectedCategoryId
    ensures isActive ==> r.service == MockChatService.SaveChatSession(a.service, a.pdfChat.selectedCategoryId, a.pdfChat.messages, now)
  {
    if isActive then
      var saved := MockChatService.SaveChatSession(a.service, a.pdfChat.selectedCategoryId, a.pdfChat.messages, now);
      App(isActive, MockPdfChat.ClearSession(a.pdfChat), saved)
    else a.(isAiChatActive := isActive)
  }

  /** The conversation is not lost: after the switch it is the newest session
      of its folder's history. */
  lemma SwitchFilesConversation(a: App, now: Timestamp)
    requires a.pdfChat.selectedCategoryId != "" && a.pdfChat.messages != []
    ensures var r := SwitchToAiChat(a, true, now);
            var sessions := MockChatService.GetChatHistory(r.service, a.pdfChat.selectedCategoryId);
            |sessions| > 0 && sessions[0].messages == a.pdfChat.messages && r.pdfChat.messages == []
  {
  }
}

=== FILE: mock_chat_service.dfy ===
/** The earlier, self-contained ChatService: no backend, categories and a
    per-category session history both kept in memory and mirrored to local
    storage ('smartpdf_categories' and 'smartpdf_chathistory'). Ids are built
    from the clock reading (`now`); random choices are explicit parameters. */
module MockChatService {
  import opened Wrappers
  import opened ChatModel
  import Seqs
  import Text

  type History = map<string, seq<ChatSession>>

  /** The published categories and history, and what was last written to
      local storage for each (None while nothing has been written). */
  datatype Service = Service(
    categories: seq<Category>,
    history: History,
    storedCategories: Option<seq<Category>>,
    storedHistory: Option<History>)

  const OneDayMs: int := 86400000

  /** The seed category used when local storage holds none. */
  function DefaultCategories(now: Timestamp): seq<Category> {
    [Category("cat1", "Project Alpha", [Pdf("pdf1", "requirements.pdf", now)], false)]
  }

  /** The seed history used when local storage holds none: one session of
      one welcome message, dated a day back. */
  function DefaultHistory(now: Timestamp): History {
    map["cat1" := [ChatSession("sess1", now - OneDayMs,
                               [AiMessage("Welcome to the chat for Project Alpha!", now)])]]
  }

  /** The constructor: each of the two lists comes from local storage when
      stored there, otherwise from the seed data; nothing is written. */
  function Create(storedCategories: Option<seq<Category>>, storedHistory: Option<History>, now: Timestamp): (r: Service)
    ensures storedCategories.Some? ==> r.categories == storedCategories.value
    ensures storedCategories.None? ==> r.categories == DefaultCategories(now)
    ensures storedHistory.Some? ==> r.history == storedHistory.value
    ensures storedHistory.None? ==> r.history == DefaultHistory(now)
    ensures r.storedCategories == storedCategories && r.storedHistory == storedHistory
  {
    Service(
      if storedCategories.Some? then storedCategories.value else DefaultCategories(now),
      if storedHistory.Some? then storedHistory.value else DefaultHistory(now),
      storedCategories, storedHistory)
  }

  /** The seed session does not start with its first message. */
  lemma DefaultHistoryNotWellFormed(now: Timestamp)
    ensures !WellFormedSession(DefaultHistory(now)["cat1"][0])
  {
  }

  /** `saveCategories`: publish the list and persist the same list; the history is untouched. */
  function SaveCategories(s: Service, categories: seq<Category>): (r: Service)
    ensures r.categories == categories && r.storedCategories == Some(categories)
    ensures r.history == s.history && r.storedHistory == s.storedHistory
  {
    s.(categories := categories, storedCategories := Some(categories))
  }

  /** `saveHistory`: publish the history and persist the same history. */
  function SaveHistory(s: Service, history: History): (r: Service)
    ensures r.history == history && r.storedHistory == Some(history)
    ensures r.categories == s.categories && r.storedCategories == s.storedCategories
  {
    s.(history := history, storedHistory := Some(history))
  }

  /** An id of the form `${prefix}${Date.now()}`: the prefix, then the
      clock reading in decimal, which reads back to that reading. */
  function ClockId(prefix: string, now: Timestamp): (id: string)
    ensures |prefix| < |id| && id[..|prefix|] == prefix
    ensures now >= 0 ==> id[|prefix|..] == Text.NatToString(now) && Text.ParseDigits(id[|prefix|..]) == now
    ensures now < 0 ==> id[|prefix|] == '-'
  {
    var id := prefix + Text.IntToString(now);
    assert id[|prefix|..] == Text.IntToString(now);
    if now < 0 then id
    else Text.NatToStringRoundTrip(now); id
  }

  /** Ids taken from different clock readings differ. */
  lemma ClockIdsDistinct(prefix: string, a: Timestamp, b: Timestamp)
    requires a != b
    ensures ClockId(prefix, a) != ClockId(prefix, b)
  {
    Text.IntToStringInjective(a, b);
    assert ClockId(prefix, a)[|prefix|..] == Text.IntToString(a);
    assert ClockId(prefix, b)[|prefix|..] == Text.IntToString(b);
  }

  /** `addCategory`: append one empty category with the given name and a
      clock-based id, keep every earlier category, and persist. */
  function AddCategory(s: Service, name: string, now: Timestamp): (r: Service)
    ensures |r.categories| == |s.categories| + 1
    ensures r.categories[..|s.categories|] == s.categories
    ensures var c := r.categories[|s.categories|];
            c.name == name && c.pdfs == [] && !c.isUploading && c.id == ClockId("cat", now)
    ensures r.storedCategories == Some(r.categories)
    ensures r.history == s.history && r.storedHistory == s.storedHistory
  {
    SaveCategories(s, s.categories + [Category(ClockId("cat", now), name, [], false)])
  }

  /** Adding a category at a clock reading no existing id was taken from, and
      then deleting it, gives back the categories and the history. */
  lemma AddThenDeleteCategory(s: Service, name: string, now: Timestamp)
    requires forall c :: c in s.categories ==> c.id != ClockId("cat", now)
    requires ClockId("cat", now) !in s.history
    ensures var r := DeleteCategory(AddCategory(s, name, now), ClockId("cat", now));
            r.categories == s.categories && r.history == s.history
  {
    var c := Category(ClockId("cat", now), name, [], false);
    assert AddCategory(s, name, now).categories == s.categories + [c];
    Seqs.RemoveAppended(s.categories, c, CategoryId);
  }

  /** `deleteCategory`: drop every category with that id and persist; when
      the history has an entry for it, drop that entry and persist the
      history. Other entries keep their sessions. */
  function DeleteCategory(s: Service, categoryId: string): (r: Service)
    ensures forall c :: c in r.categories <==> c in s.categories && c.id != categoryId
    ensures r.categories == Seqs.RemoveKey(s.categories, CategoryId, categoryId)
    ensures r.storedCategories == Some(r.categories)
    ensures categoryId !in r.history
    ensures forall k :: k != categoryId ==> (k in r.history <==> k in s.history)
    ensures forall k :: k in r.history ==> r.history[k] == s.history[k]
    ensures categoryId in s.history ==> r.storedHistory == Some(r.history)
    ensures categoryId !in s.history ==> r.history == s.history && r.storedHistory == s.storedHistory
  {
    var s1 := SaveCategories(s, Seqs.RemoveKey(s.categories, CategoryId, categoryId));
    if categoryId in s1.history then SaveHistory(s1, s1.history - {categoryId}) else s1
  }

  function FindCategory(cs: seq<Category>, categoryId: string): Option<nat> {
    Seqs.FindIndex(cs, CategoryId, categoryId)
  }

  /** The first half of `uploadPdf`: for a known category raise its
      `isUploading` flag and publish without persisting; otherwise nothing. */
  function UploadStart(s: Service, categoryId: string): (r: Service)
    ensures FindCategory(s.categories, categoryId).None? ==> r == s
    ensures r.storedCategories == s.storedCategories && r.history == s.history && r.storedHistory == s.storedHistory
    ensures |r.categories| == |s.categories|
    ensures FindCategory(s.categories, categoryId).Some? ==>
              var i := FindCategory(s.categories, categoryId).value;
              && r.categories[i] == s.categories[i].(isUploading := true)
              && forall j :: 0 <= j < |s.categories| && j != i ==> r.categories[j] == s.categories[j]
  {
    match FindCategory(s.categories, categoryId)
    case None => s
    case Some(i) => s.(categories := s.categories[i := s.categories[i].(isUploading := true)])
  }

  /** The timer callback of `uploadPdf` (it cannot fail): append one PDF named
      after the file, with a clock-based id, clear the flag, and persist. */
  function UploadComplete(s: Service, categoryId: string, fileName: string, now: Timestamp): (r: Service)
    ensures FindCategory(s.categories, categoryId).None? ==> r == s
    ensures |r.categories| == |s.categories| && r.history == s.history
    ensures FindCategory(s.categories, categoryId).Some? ==>
              var i := FindCategory(s.categories, categoryId).value;
              && r.categories[i].pdfs == s.categories[i].pdfs + [Pdf(ClockId("pdf", now), fileName, now)]
              && !r.categories[i].isUploading
              && r.categories[i].id == s.categories[i].id
              && r.categories[i].name == s.categories[i].name
              && (forall j :: 0 <= j < |s.categories| && j != i ==> r.categories[j] == s.categories[j])
              && r.storedCategories == Some(r.categories)
              && r.storedHistory == s.storedHistory
  {
    match FindCategory(s.categories, categoryId)
    case None => s
    case Some(i) =>
      var c := s.categories[i];
      SaveCategories(s, s.categories[i := c.(pdfs := c.pdfs + [Pdf(ClockId("pdf", now), fileName, now)], isUploading := false)])
  }

  /** An upload, start to finish: the one PDF is appended to the category,
      its flag is cleared, the list is persisted, and the history is untouched. */
  lemma UploadAppends(s: Service, categoryId: string, fileName: string, now: Timestamp)
    requires FindCategory(s.categories, categoryId).Some?
    ensures var i := FindCategory(s.categories, categoryId).value;
            var c := s.categories[i];
            var r := UploadComplete(UploadStart(s, categoryId), categoryId, fileName, now);
            && r.categories == s.categories[i := c.(pdfs := c.pdfs + [Pdf(ClockId("pdf", now), fileName, now)], isUploading := false)]
            && r.storedCategories == Some(r.categories)
            && r.history == s.history && r.storedHistory == s.storedHistory
  {
    var i := FindCategory(s.categories, categoryId).value;
    var c := s.categories[i];
    var started := UploadStart(s, categoryId);
    Seqs.FindIndexUpdate(s.categories, CategoryId, categoryId, i, c.(isUploading := true));
    assert FindCategory(started.categories, categoryId) == Some(i);
  }

  /** The fixed answer when the category is unknown or has no PDF. */
  const NoSourceAnswer := "Please select a category that contains PDFs to get a sourced answer."

  /** `getPdfChatResponse`: a canned answer, citing the category's first PDF
      on a random page (`roll` is `Math.floor(Math.random() * 20)`) when the
      category exists and holds a PDF, and without a source otherwise. */
  function GetPdfChatResponse(s: Service, message: string, categoryId: string, roll: nat, now: Timestamp): (m: ChatMessage)
    requires roll < 20
    ensures m.sender == Ai && m.timestamp == now
    ensures m.source.Some? <==>
              FindCategory(s.categories, categoryId).Some? && |s.categories[FindCategory(s.categories, categoryId).value].pdfs| > 0
    ensures m.source.Some? ==>
              var first := s.categories[FindCategory(s.categories, categoryId).value].pdfs[0];
              && m.source.value.pdfId == first.id
              && m.source.value.pdfName == first.name
              && 1 <= m.source.value.pageNumber <= 20
    ensures m.source.None? ==> m.text == NoSourceAnswer
  {
    match FindCategory(s.categories, categoryId)
    case Some(i) =>
      if |s.categories[i].pdfs| > 0 then
        var first := s.categories[i].pdfs[0];
        ChatMessage(Ai, "Based on \"" + first.name + "\", here is a mock answer regarding \"" + message + "\".", now,
                    Some(ChatSource(first.id, first.name, roll + 1, None)))
      else AiMessage(NoSourceAnswer, now)
    case None => AiMessage(NoSourceAnswer, now)
  }

  /** The text before the quoted message in each of the two canned answers. */
  function AiSolutionLead(pick: nat): string {
    if pick == 0 then "Here is a general AI solution for your query: " else "Regarding "
  }

  /** `getAiSolutionResponse`: one of two canned answers (`pick` is
      `Math.floor(Math.random() * 2)`), each quoting the message. */
  function GetAiSolutionResponse(message: string, pick: nat): (answer: string)
    requires pick < 2
    ensures var k := |AiSolutionLead(pick)|;
            k + |message| + 2 <= |answer| && answer[k..k + |message| + 2] == "\"" + message + "\""
  {
    var quoted := "\"" + message + "\"";
    var answer := AiSolutionLead(pick) + quoted + (if pick == 0 then "." else ", an effective approach would be...");
    assert answer[|AiSolutionLead(pick)|..|AiSolutionLead(pick)| + |quoted|] == quoted;
    answer
  }

  /** `getChatHistory`: the category's sessions, newest first, or none. */
  function GetChatHistory(s: Service, categoryId: string): (r: seq<ChatSession>)
    ensures categoryId !in s.history ==> r == []
    ensures categoryId in s.history ==> r == s.history[categoryId]
  {
    if categoryId in s.history then s.history[categoryId] else []
  }

  /** `saveChatSession`: an empty category id or an empty message list saves
      nothing; otherwise a session with a clock-based id, starting at the
      first message, is put in front of that category's sessions (created
      when absent) and the history is persisted. Other categories keep their
      sessions. */
  function SaveChatSession(s: Service, categoryId: string, messages: seq<ChatMessage>, now: Timestamp): (r: Service)
    ensures categoryId == "" || messages == [] ==> r == s
    ensures categoryId != "" && messages != [] ==>
              && GetChatHistory(r, categoryId)
                 == [ChatSession(ClockId("sess", now), messages[0].timestamp, messages)] + GetChatHistory(s, categoryId)
              && WellFormedSession(GetChatHistory(r, categoryId)[0])
              && r.history.Keys == s.history.Keys + {categoryId}
              && (forall k :: k in s.history && k != categoryId ==> r.history[k] == s.history[k])
              && r.storedHistory == Some(r.history)
              && r.categories == s.categories && r.storedCategories == s.storedCategories
  {
    if categoryId == "" || messages == [] then s
    else
      var session := ChatSession(ClockId("sess", now), messages[0].timestamp, messages);
      SaveHistory(s, s.history[categoryId := [session] + GetChatHistory(s, categoryId)])
  }

  /** `deleteChatSession`: within an existing entry keep only the sessions
      with another id, and persist; an unknown category is left alone. */
  function DeleteChatSession(s: Service, categoryId: string, sessionId: string): (r: Service)
    ensures categoryId !in s.history ==> r == s
    ensures categoryId in s.history ==>
              && r.history.Keys == s.history.Keys
              && (forall x :: x in r.history[categoryId] <==> x in s.history[categoryId] && x.id != sessionId)
              && r.history[categoryId] == Seqs.RemoveKey(s.history[categoryId], SessionId, sessionId)
              && (forall k :: k in s.history && k != categoryId ==> r.history[k] == s.history[k])
              && r.storedHistory == Some(r.history)
              && r.categories == s.categories && r.storedCategories == s.storedCategories
  {
    if categoryId in s.history then
      SaveHistory(s, s.history[categoryId := Seqs.RemoveKey(s.history[categoryId], SessionId, sessionId)])
    else s
  }

  /** Deleting the session just saved brings the category's history back. */
  lemma SaveThenDeleteSession(s: Service, categoryId: string, messages: seq<ChatMessage>, now: Timestamp)
    requires categoryId != "" && messages != []
    requires forall x :: x in GetChatHistory(s, categoryId) ==> x.id != ClockId("sess", now)
    ensures var saved := SaveChatSession(s, categoryId, messages, now);
            GetChatHistory(DeleteChatSession(saved, categoryId, ClockId("sess", now)), categoryId)
            == GetChatHistory(s, categoryId)
  {
  }

  /** Every session of every category starts with its first message. */
  predicate HistoryWellFormed(h: History) {
    forall k :: k in h ==> forall i :: 0 <= i < |h[k]| ==> WellFormedSession(h[k][i])
  }

  /** The history operations keep that invariant. */
  lemma HistoryOperationsKeepWellFormed(s: Service, categoryId: string, sessionId: string, messages: seq<ChatMessage>, now: Timestamp)
    requires HistoryWellFormed(s.history)
    ensures HistoryWellFormed(SaveChatSession(s, categoryId, messages, now).history)
    ensures HistoryWellFormed(DeleteChatSession(s, categoryId, sessionId).history)
    ensures HistoryWellFormed(DeleteCategory(s, categoryId).history)
  {
  }
}

=== FILE: mock_pdf_chat.dfy ===
/** The PDF chat component of the earlier, backend-less application; the
    mock service answers synchronously, so the answer lands in the same step. */
module MockPdfChat {
  import opened ChatModel
  import Text
  import MockChatService

  datatype View = View(messages: seq<ChatMessage>, userMessage: string, selectedCategoryId: string)

  const Initial := View([], "", "")

  /** `sendMessage`: nothing happens for blank input or without a folder.
      Otherwise the user message and then the service's answer are appended
      after the existing ones, and the input is reset to ''. */
  function SendMessage(v: View, service: MockChatService.Service, roll: nat, now: Timestamp): (r: View)
    requires roll < 20
    ensures Text.IsBlank(v.userMessage) || v.selectedCategoryId == "" ==> r == v
    ensures !Text.IsBlank(v.userMessage) && v.selectedCategoryId != "" ==>
              && |r.messages| == |v.messages| + 2
              && r.messages[..|v.messages|] == v.messages
              && r.messages[|v.messages|] == UserMessage(v.userMessage, now)
              && r.messages[|v.messages| + 1]
                 == MockChatService.GetPdfChatResponse(service, v.userMessage, v.selectedCategoryId, roll, now)
              && r.userMessage == ""
              && r.selectedCategoryId == v.selectedCategoryId
  {
    if Text.Trim(v.userMessage) == "" || v.selectedCategoryId == "" then v
    else
      var answer := MockChatService.GetPdfChatResponse(service, v.userMessage, v.selectedCategoryId, roll, now);
      v.(messages := v.messages + [UserMessage(v.userMessage, now), answer], userMessage := "")
  }

  /** The answer shown after a question cites the selected folder's first
      PDF, on a page between 1 and 20, exactly when that folder exists and
      holds a PDF; otherwise it is the fixed no-source answer. The question
      itself never carries a source. */
  lemma SendCitesFolder(v: View, service: MockChatService.Service, roll: nat, now: Timestamp)
    requires roll < 20
    requires !Text.IsBlank(v.userMessage) && v.selectedCategoryId != ""
    ensures var r := SendMessage(v, service, roll, now);
            var found := MockChatService.FindCategory(service.categories, v.selectedCategoryId);
            var answer := r.messages[|v.messages| + 1];
            && r.messages[|v.messages|].source.None?
            && answer.sender == Ai
            && (answer.source.Some? <==> found.Some? && |service.categories[found.value].pdfs| > 0)
            && (answer.source.Some? ==>
                  && answer.source.value.pdfId == service.categories[found.value].pdfs[0].id
                  && 1 <= answer.source.value.pageNumber <= 20)
            && (answer.source.None? ==> answer.text == MockChatService.NoSourceAnswer)
  {
  }

  /** `clearSession`: empty the messages only; the folder stays selected. */
  function ClearSession(v: View): (r: View)
    ensures r.messages == []
    ensures r.selectedCategoryId == v.selectedCategoryId && r.userMessage == v.userMessage
  {
    v.(messages := [])
  }
}

=== FILE: pdf_chat.dfy ===
/** The PDF chat component of the front end that starts a fresh backend
    session whenever a folder is chosen and greets with a welcome message. */
module PdfChat {
  import opened Wrappers
  import opened ChatModel
  import opened ChatView
  import Text
  import LiveChatService

  datatype View = View(
    selectedCategoryId: string,
    isSessionStarting: bool,
    isAiThinking: bool,
    messages: seq<ChatMessage>,
    userMessage: string)

  const Initial := View("", false, false, [], "")

  function WelcomeText(categoryId: string): string {
    "Session started for folder: " + categoryId + ". You can now ask questions about its content."
  }

  const ErrorText := "Sorry, I encountered an error trying to get a response. Please try again."

  /** `onCategoryChange`: with a folder selected, empty the messages, mark the
      session as starting and ask the service to start a session for that
      folder (the request); with none selected, do nothing. */
  function OnCategoryChange(v: View): (r: Step<View>)
    ensures v.selectedCategoryId == "" ==> r == Step(v, None)
    ensures v.selectedCategoryId != "" ==>
              && r.request == Some(StartSession(v.selectedCategoryId))
              && r.view.messages == [] && r.view.isSessionStarting
              && r.view.selectedCategoryId == v.selectedCategoryId
              && r.view.userMessage == v.userMessage && r.view.isAiThinking == v.isAiThinking
  {
    if v.selectedCategoryId == "" then Step(v, None)
    else Step(v.(isSessionStarting := true, messages := []), Some(StartSession(v.selectedCategoryId)))
  }

  /** The completion of the session start: either way the starting flag is
      cleared; on success one welcome message is appended. */
  function SessionStarted(v: View, started: LiveChatService.ApiResult<LiveChatService.StartResponse>, now: Timestamp): (r: View)
    ensures !r.isSessionStarting
    ensures v.messages <= r.messages
    ensures started.Success? ==> r.messages == v.messages + [AiMessage(WelcomeText(v.selectedCategoryId), now)]
    ensures started.Failure? ==> r.messages == v.messages
    ensures r.selectedCategoryId == v.selectedCategoryId && r.userMessage == v.userMessage
    ensures r.isAiThinking == v.isAiThinking
  {
    if started.Success? then
      v.(isSessionStarting := false, messages := v.messages + [AiMessage(WelcomeText(v.selectedCategoryId), now)])
    else v.(isSessionStarting := false)
  }

  /** Choosing a folder, start to finish: the flag is cleared in both cases;
      a successful start with a non-empty id leaves exactly one welcome
      message next to an active service session, and a failed start from an
      idle service leaves no message and the service still idle. */
  lemma ChooseFolder(v: View, session: Option<string>, started: LiveChatService.ApiResult<LiveChatService.StartResponse>, now: Timestamp)
    requires v.selectedCategoryId != ""
    ensures var r := SessionStarted(OnCategoryChange(v).view, started, now);
            var held := LiveChatService.StartNewPdfChat(session, started);
            && !r.isSessionStarting
            && (started.Success? ==> r.messages == [AiMessage(WelcomeText(v.selectedCategoryId), now)])
            && (started.Success? && started.value.sessionId != "" ==> LiveChatService.IsPdfSessionActive(held))
            && (started.Failure? ==> r.messages == [])
            && (started.Failure? && !LiveChatService.IsPdfSessionActive(session) ==> !LiveChatService.IsPdfSessionActive(held))
  {
  }

  /** `sendMessage`: blank input changes nothing; otherwise the user message
      is appended, the thinking flag raised, the input reset to '', and the
      pre-reset text sent (the request). */
  function SendMessage(v: View, now: Timestamp): (r: Step<View>)
    ensures Text.IsBlank(v.userMessage) ==> r == Step(v, None)
    ensures !Text.IsBlank(v.userMessage) ==>
              && r.view.messages == v.messages + [UserMessage(v.userMessage, now)]
              && r.view.isAiThinking
              && r.view.userMessage == ""
              && r.request == Some(AskPdf(v.userMessage))
              && r.view.selectedCategoryId == v.selectedCategoryId
              && r.view.isSessionStarting == v.isSessionStarting
  {
    if Text.Trim(v.userMessage) == "" then Step(v, None)
    else Step(v.(messages := v.messages + [UserMessage(v.userMessage, now)], isAiThinking := true, userMessage := ""),
              Some(AskPdf(v.userMessage)))
  }

  /** The completion of the request: the answer, or the fixed error notice, is
      appended after everything already shown; the thinking flag is cleared. */
  function ReplyArrived(v: View, reply: Result<ChatMessage, LiveChatService.ChatError>, now: Timestamp): (r: View)
    ensures !r.isAiThinking
    ensures |r.messages| == |v.messages| + 1 && r.messages[..|v.messages|] == v.messages
    ensures reply.Success? ==> r.messages[|v.messages|] == reply.value
    ensures reply.Failure? ==> r.messages[|v.messages|] == AiMessage(ErrorText, now)
    ensures r.selectedCategoryId == v.selectedCategoryId && r.userMessage == v.userMessage
    ensures r.isSessionStarting == v.isSessionStarting
  {
    match reply
    case Success(m) => v.(messages := v.messages + [m], isAiThinking := false)
    case Failure(_) => v.(messages := v.messages + [AiMessage(ErrorText, now)], isAiThinking := false)
  }

  /** Asking without an active session shows the question and then the error
      notice, whatever the backend would have answered. */
  lemma AskWithoutSession(v: View, session: Option<string>, reply: LiveChatService.ApiResult<LiveChatService.ChatReply>, t0: Timestamp, t1: Timestamp)
    requires !Text.IsBlank(v.userMessage) && !LiveChatService.IsPdfSessionActive(session)
    ensures var sent := SendMessage(v, t0);
            var answer := LiveChatService.GetPdfChatResponse(session, sent.request.value.question, reply, t1);
            ReplyArrived(sent.view, answer, t1).messages
              == (v.messages + [UserMessage(v.userMessage, t0)]) + [AiMessage(ErrorText, t1)]
  {
  }

  /** `clearSession`: empty the messages, deselect the folder and clear the
      service's session. */
  function ClearSession(v: View, session: Option<string>): (r: (View, Option<string>))
    ensures r.0.messages == [] && r.0.selectedCategoryId == ""
    ensures !LiveChatService.IsPdfSessionActive(r.1)
    ensures r.0.userMessage == v.userMessage
    ensures r.0.isAiThinking == v.isAiThinking && r.0.isSessionStarting == v.isSessionStarting
  {
    (v.(messages := [], selectedCategoryId := ""), LiveChatService.ClearPdfSession(session))
  }
}

=== FILE: pdf_chat_with_history.dfy ===
/** The PDF chat component of the front end that, when a folder is chosen,
    shows the folder's stored history (or a welcome message when there is
    none), then starts a backend session; it also opens the PDF viewer on a
    message's source. */
module PdfChatWithHistory {
  import opened Wrappers
  import opened ChatModel
  import opened ChatView
  import Text
  import LiveChatService

  datatype View = View(
    selectedCategoryId: string,
    isLoading: bool,
    messages: seq<ChatMessage>,
    userInput: string,
    showScrollToBottom: bool,
    showPdfViewer: bool,
    selectedSource: Option<ChatSource>)

  const Initial := View("", false, [], "", false, false, None)

  function WelcomeText(categoryId: string): string {
    "This is a new chat for " + categoryId + ". Ask me anything about its content!"
  }

  const ErrorText := "Sorry, I encountered an error trying to get a response. Please try again."

  /** The scroll button and the PDF viewer are the same in both views. */
  predicate ViewerKept(v: View, r: View) {
    r.showScrollToBottom == v.showScrollToBottom && r.showPdfViewer == v.showPdfViewer && r.selectedSource == v.selectedSource
  }

  /** `onCategoryChange`: with a folder selected, empty the messages, raise
      the loading flag and fetch the folder's history (the request); with
      none selected, do nothing. */
  function OnCategoryChange(v: View): (r: Step<View>)
    ensures v.selectedCategoryId == "" ==> r == Step(v, None)
    ensures v.selectedCategoryId != "" ==>
              && r.request == Some(FetchHistory(v.selectedCategoryId))
              && r.view.messages == [] && r.view.isLoading
              && r.view.selectedCategoryId == v.selectedCategoryId
              && r.view.userInput == v.userInput
              && ViewerKept(v, r.view)
  {
    if v.selectedCategoryId == "" then Step(v, None)
    else Step(v.(isLoading := true, messages := []), Some(FetchHistory(v.selectedCategoryId)))
  }

  /** The completion of the history fetch. With sessions, show the first
      session's messages; without, append one welcome message; in both cases
      start a session for the folder (the request) and clear the loading
      flag. A failed fetch only clears the flag. */
  function HistoryLoaded(v: View, history: Result<seq<ChatSession>, LiveChatService.ApiError>, now: Timestamp): (r: Step<View>)
    ensures !r.view.isLoading
    ensures r.view.selectedCategoryId == v.selectedCategoryId && r.view.userInput == v.userInput
    ensures ViewerKept(v, r.view)
    ensures history.Failure? ==> r.view.messages == v.messages && r.request == None
    ensures history.Success? ==> r.request == Some(StartSession(v.selectedCategoryId))
    ensures history.Success? && |history.value| > 0 ==> r.view.messages == history.value[0].messages
    ensures history.Success? && |history.value| == 0 ==>
              r.view.messages == v.messages + [AiMessage(WelcomeText(v.selectedCategoryId), now)]
  {
    match history
    case Failure(_) => Step(v.(isLoading := false), None)
    case Success(sessions) =>
      var messages := if |sessions| > 0 then sessions[0].messages
                      else v.messages + [AiMessage(WelcomeText(v.selectedCategoryId), now)];
      Step(v.(messages := messages, isLoading := false), Some(StartSession(v.selectedCategoryId)))
  }

  /** Choosing a folder against the live service, whose history never fails:
      the shown messages spell out the backend's log exactly, or are the one
      welcome message when the log is empty or unavailable, and a session
      start always follows. */
  lemma ChooseFolderShowsHistory(v: View, fetched: LiveChatService.ApiResult<seq<LiveChatService.RawMessage>>, now: Timestamp)
    requires v.selectedCategoryId != ""
    ensures var id := v.selectedCategoryId;
            var r := HistoryLoaded(OnCategoryChange(v).view, Success(LiveChatService.GetChatHistory(id, fetched)), now);
            && !r.view.isLoading
            && r.request == Some(StartSession(id))
            && (fetched.Success? && fetched.value != [] ==>
                  LiveChatService.FlattenHistory([ChatSession(id, fetched.value[0].timestamp, r.view.messages)]) == fetched.value)
            && (fetched.Failure? || fetched.value == [] ==> r.view.messages == [AiMessage(WelcomeText(id), now)])
  {
  }

  /** A failed history fetch leaves the message list empty. */
  lemma HistoryFailureLeavesEmpty(v: View, err: LiveChatService.ApiError, now: Timestamp)
    requires v.selectedCategoryId != ""
    ensures var r := HistoryLoaded(OnCategoryChange(v).view, Failure(err), now);
            r.view.messages == [] && !r.view.isLoading && r.request.None?
  {
  }

  /** `sendMessage`: nothing happens for blank input or without a folder;
      otherwise the user message is appended before the request goes out,
      the loading flag is raised and the input reset to ''. */
  function SendMessage(v: View, now: Timestamp): (r: Step<View>)
    ensures Text.IsBlank(v.userInput) || v.selectedCategoryId == "" ==> r == Step(v, None)
    ensures !Text.IsBlank(v.userInput) && v.selectedCategoryId != "" ==>
              && r.view.messages == v.messages + [UserMessage(v.userInput, now)]
              && r.view.isLoading
              && r.view.userInput == ""
              && r.request == Some(AskPdf(v.userInput))
              && r.view.selectedCategoryId == v.selectedCategoryId
              && ViewerKept(v, r.view)
  {
    if Text.Trim(v.userInput) == "" || v.selectedCategoryId == "" then Step(v, None)
    else Step(v.(messages := v.messages + [UserMessage(v.userInput, now)], isLoading := true, userInput := ""),
              Some(AskPdf(v.userInput)))
  }

  /** The completion of the request: the answer, or the fixed error notice,
      goes after everything already shown; the loading flag is cleared. */
  function ReplyArrived(v: View, reply: Result<ChatMessage, LiveChatService.ChatError>, now: Timestamp): (r: View)
    ensures !r.isLoading
    ensures |r.messages| == |v.messages| + 1 && r.messages[..|v.messages|] == v.messages
    ensures reply.Success? ==> r.messages[|v.messages|] == reply.value
    ensures reply.Failure? ==> r.messages[|v.messages|] == AiMessage(ErrorText, now)
    ensures r.selectedCategoryId == v.selectedCategoryId && r.userInput == v.userInput
    ensures ViewerKept(v, r)
  {
    match reply
    case Success(m) => v.(messages := v.messages + [m], isLoading := false)
    case Failure(_) => v.(messages := v.messages + [AiMessage(ErrorText, now)], isLoading := false)
  }

  /** A question answered by the backend: the question then the mapped answer,
      carrying a source exactly when the backend named one. */
  lemma AskAndAnswer(v: View, session: Option<string>, reply: LiveChatService.ChatReply, t0: Timestamp, t1: Timestamp)
    requires !Text.IsBlank(v.userInput) && v.selectedCategoryId != ""
    requires LiveChatService.IsPdfSessionActive(session)
    ensures var sent := SendMessage(v, t0);
            var answer := LiveChatService.GetPdfChatResponse(session, sent.request.value.question, Success(reply), t1);
            var r := ReplyArrived(sent.view, answer, t1);
            && r.messages[..|v.messages|] == v.messages
            && |r.messages| == |v.messages| + 2
            && r.messages[|v.messages|] == UserMessage(v.userInput, t0)
            && r.messages[|v.messages| + 1].text == reply.answer
            && (r.messages[|v.messages| + 1].source.Some? <==> |reply.sources| > 0)
  {
  }

  /** `onChatScroll`: the button shows exactly when the viewport is more than
      one pixel above the bottom. */
  function OnChatScroll(v: View, scrollHeight: int, scrollTop: int, clientHeight: int): (r: View)
    ensures r.showScrollToBottom <==> scrollHeight - scrollTop > clientHeight + 1
    ensures r == v.(showScrollToBottom := r.showScrollToBottom)
  {
    v.(showScrollToBottom := ShowScrollToBottom(scrollHeight, scrollTop, clientHeight))
  }

  /** `viewSource`: a message with a source opens the viewer on it; one
      without a source only raises a notice. */
  function ViewSource(v: View, source: Option<ChatSource>): (r: View)
    ensures source.Some? ==> r.showPdfViewer && r.selectedSource == source
    ensures source.None? ==> r == v
    ensures r == v.(showPdfViewer := r.showPdfViewer, selectedSource := r.selectedSource)
  {
    if source.Some? then v.(selectedSource := source, showPdfViewer := true) else v
  }

  /** `closePdfViewer`: hide the viewer and forget the source. */
  function ClosePdfViewer(v: View): (r: View)
    ensures !r.showPdfViewer && r.selectedSource.None?
    ensures r == v.(showPdfViewer := r.showPdfViewer, selectedSource := r.selectedSource)
  {
    v.(showPdfViewer := false, selectedSource := None)
  }

  /** Opening and then closing the viewer restores a closed viewer. */
  lemma ViewThenClose(v: View, source: Option<ChatSource>)
    requires !v.showPdfViewer && v.selectedSource.None?
    ensures ClosePdfViewer(ViewSource(v, source)) == v
  {
  }

  /** `clearSession`: empty the messages, deselect the folder and clear the
      service's session. */
  function ClearSession(v: View, session: Option<string>): (r: (View, Option<string>))
    ensures r.0.messages == [] && r.0.selectedCategoryId == ""
    ensures !LiveChatService.IsPdfSessionActive(r.1)
    ensures r.0.userInput == v.userInput && r.0.isLoading == v.isLoading
    ensures ViewerKept(v, r.0)
  {
    (v.(messages := [], selectedCategoryId := ""), LiveChatService.ClearPdfSession(session))
  }
}

=== FILE: seqs.dfy ===
/** Sequence operations the services use on their lists, keyed by a string id. */
module Seqs {
  import opened Wrappers

  /** The elements of `xs` whose key differs from `k`, in their original
      order: the source's `xs.filter(x => x.id !== k)`. */
  function RemoveKey<T>(xs: seq<T>, key: T -> string, k: string): (r: seq<T>)
    ensures |r| <= |xs|
    ensures forall i :: 0 <= i < |r| ==> r[i] in xs && key(r[i]) != k
    ensures forall i :: 0 <= i < |xs| && key(xs[i]) != k ==> xs[i] in r
    ensures (forall i :: 0 <= i < |xs| ==> key(xs[i]) != k) <==> r == xs
  {
    if xs == [] then []
    else if key(xs[0]) == k then RemoveKey(xs[1..], key, k)
    else [xs[0]] + RemoveKey(xs[1..], key, k)
  }

  /** Filtering distributes over concatenation, so the survivors keep their order. */
  lemma {:induction false} RemoveKeyAppend<T>(a: seq<T>, b: seq<T>, key: T -> string, k: string)
    ensures RemoveKey(a + b, key, k) == RemoveKey(a, key, k) + RemoveKey(b, key, k)
  {
    if a == [] {
      assert a + b == b;
    } else {
      assert (a + b)[1..] == a[1..] + b;
      RemoveKeyAppend(a[1..], b, key, k);
    }
  }

  /** Removing the key of an element just appended, when no earlier element
      has it, gives back the list before the append. */
  lemma RemoveAppended<T>(xs: seq<T>, x: T, key: T -> string)
    requires forall y :: y in xs ==> key(y) != key(x)
    ensures RemoveKey(xs + [x], key, key(x)) == xs
  {
    RemoveKeyAppend(xs, [x], key, key(x));
    assert RemoveKey([x], key, key(x)) == [];
  }

  /** The index of the first element whose key is `k`: the source's
      `findIndex(x => x.id === k)`, with None for its -1. */
  function FindIndex<T>(xs: seq<T>, key: T -> string, k: string): (r: Option<nat>)
    ensures r.None? <==> forall i :: 0 <= i < |xs| ==> key(xs[i]) != k
    ensures r.Some? ==> r.value < |xs| && key(xs[r.value]) == k
    ensures r.Some? ==> forall j :: 0 <= j < r.value ==> key(xs[j]) != k
  {
    if xs == [] then None
    else if key(xs[0]) == k then Some(0)
    else
      match FindIndex(xs[1..], key, k)
      case None => None
      case Some(i) => Some(i + 1)
  }

  /** Replacing one element by another with the same key does not move the first match. */
  lemma FindIndexUpdate<T>(xs: seq<T>, key: T -> string, k: string, i: nat, x: T)
    requires i < |xs| && key(x) == key(xs[i])
    ensures FindIndex(xs[i := x], key, k) == FindIndex(xs, key, k)
  {
    var ys := xs[i := x];
    assert forall j :: 0 <= j < |xs| ==> key(ys[j]) == key(xs[j]);
  }
}

=== FILE: text.dfy ===
/** The two pieces of JavaScript string behaviour the components rely on:
    `String.prototype.trim` in the blank-input guards, and the decimal
    rendering of a number inside a template literal. */
module Text {

  /** WhiteSpace and LineTerminator code points (sections 12.2 and 12.3 of
      ECMA-262), the characters `trim` removes. */
  predicate IsJsWhitespace(c: char) {
    var n := c as int;
    n == 0x09 || n == 0x0A || n == 0x0B || n == 0x0C || n == 0x0D || n == 0x20
    || n == 0xA0 || n == 0x1680 || (0x2000 <= n <= 0x200A) || n == 0x2028
    || n == 0x2029 || n == 0x202F || n == 0x205F || n == 0x3000 || n == 0xFEFF
  }

  /** Every character is whitespace. */
  predicate IsBlank(s: string) {
    forall i :: 0 <= i < |s| ==> IsJsWhitespace(s[i])
  }

  /** `s` without its leading whitespace. */
  function TrimStart(s: string): (r: string)
    ensures |r| <= |s| && r == s[|s| - |r|..]
    ensures r == [] || !IsJsWhitespace(r[0])
    ensures forall i :: 0 <= i < |s| - |r| ==> IsJsWhitespace(s[i])
  {
    if s == [] || !IsJsWhitespace(s[0]) then s else TrimStart(s[1..])
  }

  /** `s` without its trailing whitespace. */
  function TrimEnd(s: string): (r: string)
    ensures |r| <= |s| && r == s[..|r|]
    ensures r == [] || !IsJsWhitespace(r[|r| - 1])
    ensures forall i :: |r| <= i < |s| ==> IsJsWhitespace(s[i])
  {
    if s == [] || !IsJsWhitespace(s[|s| - 1]) then s else TrimEnd(s[..|s| - 1])
  }

  /** `s.trim()`; the guards `if (!s.trim()) return` fire exactly on blank input. */
  function Trim(s: string): (r: string)
    ensures r == "" <==> IsBlank(s)
    ensures r != "" ==> !IsJsWhitespace(r[0]) && !IsJsWhitespace(r[|r| - 1])
  {
    var t := TrimStart(s);
    var r := TrimEnd(t);
    if r == "" then
      assert forall i :: 0 <= i < |s| ==> IsJsWhitespace(s[i]) by {
        forall i | 0 <= i < |s|
          ensures IsJsWhitespace(s[i])
        {
          if i >= |s| - |t| {
            assert s[i] == t[i - (|s| - |t|)];
          }
        }
      }
      r
    else
      assert !IsJsWhitespace(s[|s| - |t|]);
      r
  }

  /** The ASCII digit of `d`. */
  function DigitChar(d: nat): (c: char)
    requires d < 10
    ensures '0' <= c <= '9' && c as int - '0' as int == d
  {
    (d + '0' as int) as char
  }

  /** The decimal rendering of `n`, as `${n}` prints a non-negative integer. */
  function NatToString(n: nat): (r: string)
    ensures |r| > 0
    ensures forall i :: 0 <= i < |r| ==> '0' <= r[i] <= '9'
    decreases n
  {
    if n < 10 then [DigitChar(n)] else NatToString(n / 10) + [DigitChar(n % 10)]
  }

  /** The decimal rendering of an integer, with a leading minus sign when negative. */
  function IntToString(n: int): (r: string)
    ensures |r| > 0
    ensures n < 0 <==> r[0] == '-'
  {
    if n < 0 then "-" + NatToString(-n) else NatToString(n)
  }

  /** Reads a string of decimal digits back into the number it denotes. */
  function ParseDigits(s: string): nat
    requires forall i :: 0 <= i < |s| ==> '0' <= s[i] <= '9'
  {
    if s == [] then 0
    else ParseDigits(s[..|s| - 1]) * 10 + (s[|s| - 1] as int - '0' as int)
  }

  /** Printing loses nothing: the digits read back to the number. */
  lemma {:induction false} NatToStringRoundTrip(n: nat)
    ensures ParseDigits(NatToString(n)) == n
    decreases n
  {
    if n >= 10 {
      var s := NatToString(n);
      assert s[..|s| - 1] == NatToString(n / 10);
      NatToStringRoundTrip(n / 10);
    }
  }

  /** Distinct integers print differently, so ids built from distinct clock readings differ. */
  lemma IntToStringInjective(a: int, b: int)
    requires a != b
    ensures IntToString(a) != IntToString(b)
  {
    if IntToString(a) == IntToString(b) {
      var sa, sb := IntToString(a), IntToString(b);
      if a < 0 {
        assert b < 0;
        assert sa[1..] == NatToString(-a);
        assert sb[1..] == NatToString(-b);
        NatToStringNegRoundTrip(a);
        NatToStringNegRoundTrip(b);
      } else {
        assert b >= 0;
        NatToStringRoundTrip(a);
        NatToStringRoundTrip(b);
      }
    }
  }

  /** The digits after the minus sign read back to the magnitude. */
  lemma NatToStringNegRoundTrip(n: int)
    requires n < 0
    ensures ParseDigits(IntToString(n)[1..]) == -n
  {
    assert IntToString(n)[1..] == NatToString(-n);
    NatToStringRoundTrip(-n);
  }
}

=== FILE: wrappers.dfy ===
/** Failure-compatible wrappers used wherever the source has an optional
    field, a nullable value or an operation that can fail. */
module Wrappers {

  /** An optional value: the source's `T | null` and `field?: T`. */
  datatype Option<+T> = None | Some(value: T)

  /** The outcome of an asynchronous call: the `next` or the `error` callback. */
  datatype Result<+T, +E> = Success(value: T) | Failure(error: E)
}
